=== FILE: README.md ===
# ZDS session engine of the ztunnel CNI shim

The shim stands in for Istio's CNI agent. It listens on a Unix socket that
ztunnel connects to and speaks ZDS, the workload-discovery protocol that
ztunnel expects. For each accepted connection the shim runs a fixed
session:

1. Read a `ZdsHello` and require version 1.
2. Send a `WorkloadRequest` holding `SnapshotSent` and wait for an `Ack`.
3. For each configured netns path, in order:
   - open the path;
   - send an `AddWorkload` request, with the namespace's file descriptor
     attached to the same write;
   - close the handle and wait for an `Ack`.

The first failure the code checks ends the session at the `cleanup`
label, which closes the connection. A failed read while waiting for an
Ack is not checked: only whether the bytes left in the buffer decode as an
Ack decides.

This project models that session as a pure function: its inputs are
oracles, and its result is a trace of effects plus a terminal state. It
proves what the trace looks like.

## Modules

- `Wrappers` (`wrappers.dfy`): `Option` and `Outcome`.
- `Decimal` (`decimal.dfy`): Go's `%d` rendering of an integer, and a
  parser that is proved to invert it.
- `Zds` (`zds.dfy`): the wire messages as logical values and the workload
  identifier `"workload-<ts>"`.
- `Trace` (`trace.dfy`): the effects a session can have (`Event`) and the
  views the properties are stated over:
  - the writes (`Sends`);
  - the Ack reads (`AckReads`);
  - the send/ack exchange (`Exchanges`);
  - the netns paths opened, in order (`Opens`);
  - the netns handle discipline (`HandlesBalanced`).
- `Shim` (`shim.dfy`):
  - one function per source function (`ReadZdsHello`, `ReadAck`,
    `WriteSnapshot`, `WriteAddWorkload`);
  - the per-connection body of `listen` (`RunTargets`, `Converse`,
    `RunSession`);
  - imperative versions of the same body (`RegisterTargets`,
    `ServeConnection`), each proved equal to its functional counterpart.
- `ShimProperties` (`properties.dfy`): the properties of whole sessions.

## Oracles

Every effect on the outside world is an input, held in `Env`:

- the first read and the decode of the hello (`HelloIo`);
- whether the snapshot marshals and whether its write succeeds;
- for each Ack, whether the read fails and whether the bytes decode
  (`AckIo`);
- whether the accepted connection is a `*net.UnixConn`;
- for the i-th path, `target(i)` (`TargetIo`): the nanosecond clock, the
  marshal, the `os.Open`, the descriptor-carrying write, and the Ack after
  it.

A session is `RunSession(paths, env)`. It returns:

- the trace of `Event`s: hello read, Ack read, successful write with the
  netns path whose descriptor rides along, netns opened, netns closed, and
  connection closed;
- a `Terminal`: `Done`, or `Error(cause)`.

## Behaviour followed from the code

Two behaviours of `cni-shim/shim.go` are easy to miss. The model follows
the code in both.

- **Failed Ack reads are not checked.** The error that `conn.Read`
  returns while waiting for an Ack is overwritten at once by the result of
  `readAck` (lines 177-178 and 193-194). A session therefore aborts at an
  Ack only when the bytes do not decode. `AckReadErrorsIgnored` states
  this: making every Ack read succeed changes nothing except the recorded
  read results.
- **A finished session leaves the connection open.** One might expect a
  finished session to close its connection too. The code ends the success
  path with `continue` at line 200, which skips `cleanup` (lines 201-202). The connection is closed only on the
  error path. `ConnectionClosedOnlyOnError` and `SuccessfulSession` state
  this.

## Model

| member | source | states |
|---|---|---|
| Shim.ReadZdsHello | cni-shim/shim.go:38-48 | A hello passes exactly when it decodes with version 1. An undecodable hello is an unmarshal error. Any other version is rejected as unsupported, carrying that version. |
| Shim.ReadAck | cni-shim/shim.go:29-36 | An Ack passes exactly when it decodes; otherwise the error is an Ack unmarshal error. Its content is never inspected. |
| Shim.WriteSnapshot | cni-shim/shim.go:50-70 | The snapshot step succeeds exactly when the marshal and the write both succeed. It then writes one SnapshotSent request without a descriptor; on failure it writes nothing. |
| Shim.WriteAddWorkload | cni-shim/shim.go:72-119 | Registration succeeds exactly when the marshal, the Unix-connection cast, the open and the write all succeed. Nothing is opened unless the marshal and the cast pass, and a marshalled request on a non-Unix connection fails with the cast error. It writes the AddWorkload for its timestamp, with the path's descriptor, exactly on success. Every opened handle is closed again, and the connection is not touched. |
| Shim.RunTargets | cni-shim/shim.go:183-198 | The registration loop from path i on finishes exactly when every remaining path registers and its Ack decodes. It never closes the connection. |
| Shim.Converse | cni-shim/shim.go:156-198 | The session before cleanup finishes exactly when the handshake and every registration pass. It starts with the hello read and never closes the connection. |
| Shim.RunSession | cni-shim/shim.go:156-202 | A session is done exactly when every stage passes. The connection is closed exactly when the session ends in error, and then as its last event. The session always starts with the hello read. |
| Shim.RegisterTargets | cni-shim/shim.go:183-198 | The imperative `for` loop over the paths produces the same trace and terminal state as the functional registration loop. |
| Shim.ServeConnection | cni-shim/shim.go:156-202 | The imperative session, with `goto cleanup` written as a labelled break, produces the same trace and terminal state as `RunSession`. |
| Decimal.FormatInt | cni-shim/shim.go:75 | The `%d` rendering of an integer is non-empty and starts with '-' exactly when the integer is negative. |
| Decimal.FormatIntNoPadding | cni-shim/shim.go:75 | After the optional sign the `%d` rendering has at least one character, all of them digits, and the first digit is '0' only for zero, so there is no zero padding. |
| Zds.WorkloadId | cni-shim/shim.go:75 | The identifier starts with the prefix `"workload-"` and is longer than it. |
| Decimal.FormatIntRoundTrip | cni-shim/shim.go:75 | Parsing the `%d` rendering of an integer gives that integer back. |
| Decimal.FormatIntInjective | cni-shim/shim.go:75 | Two integers render the same under `%d` exactly when they are equal. |
| Zds.WorkloadIdRoundTrip | cni-shim/shim.go:74-75 | The timestamp can be read back from the identifier `"workload-<ts>"`. |
| Zds.WorkloadIdInjective | cni-shim/shim.go:74-75 | Two registrations get the same identifier exactly when they were minted at the same nanosecond. |
| Zds.AddWorkloadRequest | cni-shim/shim.go:77-88 | The request is an AddWorkload whose uid, name, namespace and service account are the same identifier, and that identifier encodes the timestamp. |
| ShimProperties.VersionGate | cni-shim/shim.go:43-45 | A hello with any version other than 1 ends the session with the unsupported-version error. Only the hello read and the connection close happen, so no snapshot is sent. |
| ShimProperties.NothingBeforeHello | cni-shim/shim.go:156-167 | A failed first read, or a hello that does not decode, aborts with the matching error. Nothing is written or opened before the connection is closed. |
| ShimProperties.SnapshotAfterHello | cni-shim/shim.go:163-174 | SnapshotSent is written exactly when the hello carried version 1 and the snapshot marshalled and wrote. |
| ShimProperties.SendsFollowPlan | cni-shim/shim.go:171-190 | Whatever a session writes is a prefix of its plan: SnapshotSent, then the i-th path's AddWorkload with the i-th path's descriptor, in path order. |
| ShimProperties.ExchangesFollowPlan | cni-shim/shim.go:169-198 | In every session, however it ends, the writes and Ack reads form a prefix of the alternating plan: SnapshotSent, its Ack read, then each path's AddWorkload and its Ack read in path order. Each write is followed by exactly one Ack read before the next write. |
| ShimProperties.TargetsExchangePrefix | cni-shim/shim.go:183-198 | However the registration loop ends, its writes and Ack reads form a prefix of the per-path alternating plan. |
| ShimProperties.SuccessfulSession | cni-shim/shim.go:169-200 | A session in which every stage passes is done and writes its whole plan. In the exchange view every write is directly followed by one Ack read. For N paths there are exactly N + 1 Ack reads, and the connection is not closed. |
| ShimProperties.FailFast | cni-shim/shim.go:187-190 | If the write for path i fails, the session ends in error. It writes at most SnapshotSent and the AddWorkloads for paths before i, and its last event is the connection close. |
| ShimProperties.FailFastAck | cni-shim/shim.go:187-197 | If path i does not pass, because its write fails or its Ack does not decode, the session ends in error. It writes nothing beyond SnapshotSent and the AddWorkloads for paths up to and including i. |
| ShimProperties.SnapshotAckAborts | cni-shim/shim.go:176-181 | If the snapshot's Ack does not decode, the session is exactly the hello read, SnapshotSent, the Ack read and the connection close, ending with the Ack unmarshal error. |
| ShimProperties.CastBeforeOpen | cni-shim/shim.go:95-103 | On a connection that is not a Unix connection no netns path is ever opened. A session that reaches its first registration and marshals the request fails there with the cast error. |
| ShimProperties.NetnsHandlesBalanced | cni-shim/shim.go:100-110 | In every session, however it ends, each handle is opened only while no other is held. A descriptor is attached only while its own handle is held, and each handle is closed before the next read, leaving none open. |
| ShimProperties.RegistrationShape | cni-shim/shim.go:72-110 | Every AddWorkload a session writes is the one for some configured path: its identifier is that path's `"workload-<ts>"` in all four fields, and that path's descriptor travels in the same write. |
| ShimProperties.AckReadErrorsIgnored | cni-shim/shim.go:176-197 | Making every Ack read succeed leaves the terminal state unchanged. The trace changes only in the recorded Ack read results. |
| ShimProperties.ConnectionClosedOnlyOnError | cni-shim/shim.go:199-202 | A finished session never closes the connection; a failed one closes it as its last act. This restates the contract of `Shim.RunSession` under the name of the behaviour. |
| ShimProperties.TargetsFollowPlan | cni-shim/shim.go:183-198 | The registration loop writes a prefix of its per-path plan, and the whole plan when it finishes. |
| ShimProperties.TargetsStopAtAny | cni-shim/shim.go:187-197 | A registration loop that reaches a path that does not pass, because its write fails or its Ack does not decode, writes no AddWorkload after that path's own. That is at most one write per path, from where the loop started up to and including that path. |
| ShimProperties.TargetsWriteCount | cni-shim/shim.go:183-198 | The loop's trace records as many AddWorkload writes as a count taken straight from the per-path outcomes. Each path whose write goes through counts once, and the count goes on past a path only when that path's Ack decodes. |
| ShimProperties.LoopWritesStop | cni-shim/shim.go:187-197 | That count is at most one per path, up to the first path that does not pass. |
| ShimProperties.RegisteredOpens | cni-shim/shim.go:90-104 | A registration opens its own netns path, once, exactly when its request marshals, the connection is a Unix connection and the open succeeds. It opens no other path, and the Ack read after it opens nothing. |
| ShimProperties.TargetsOpenLoop | cni-shim/shim.go:183-198 | The loop's trace opens exactly the paths of a list taken straight from the per-path outcomes, in path order. A path is listed when it gets past marshal, cast and open, and the list goes on past a path only when that path passes. |
| ShimProperties.LoopOpensPlan | cni-shim/shim.go:183-198 | That list is a prefix of the loop's paths from where it started, each opened once, in order. |
| ShimProperties.LoopOpensStop | cni-shim/shim.go:187-197 | That list holds at most one path per path, up to the first path that does not pass. |
| ShimProperties.TargetsOpenPlan | cni-shim/shim.go:183-198 | The registration loop opens a prefix of its paths, in path order, each at most once, none skipped. |
| ShimProperties.TargetsOpensStop | cni-shim/shim.go:187-197 | A registration loop that reaches a path that does not pass, because its write fails or its Ack does not decode, opens no netns path after that path. |
| ShimProperties.SessionOpens | cni-shim/shim.go:156-202 | Only the registration loop opens netns paths. A session whose handshake goes through opens what its loop opens; any other session opens none, and the cleanup opens none. |
| ShimProperties.OpensFollowPlan | cni-shim/shim.go:183-198 | Every session, however it ends, opens a prefix of its netns paths, in path order, each at most once. |
| ShimProperties.OpensFailFast | cni-shim/shim.go:187-197 | If path i does not pass, because its write fails or its Ack does not decode, the session opens no netns path beyond paths 0 to i, in that order. |
| ShimProperties.TargetsExchange | cni-shim/shim.go:183-198 | In a loop that finishes, each registration's write is directly followed by its Ack read. |
| ShimProperties.TargetsBalanced | cni-shim/shim.go:183-198 | The registration loop keeps the netns handle discipline however it ends. |
| ShimProperties.TargetsIgnoreAckReadErrors | cni-shim/shim.go:192-197 | In the registration loop, Ack read failures change only the recorded read results. |
| ShimProperties.ConverseIgnoresAckReadErrors | cni-shim/shim.go:176-181 | Up to cleanup, Ack read failures change only the recorded read results. |
| ShimProperties.OneTargetScenario | cni-shim/shim.go:156-200 | For one path with every step succeeding, the exact trace is: hello, SnapshotSent, Ack, open, AddWorkload with the descriptor, close, Ack. The session ends done. |
| ShimProperties.NoTargetsScenario | cni-shim/shim.go:156-200 | With no paths, the handshake alone completes the session. |

## Left out

- Protobuf encoding and decoding are not modelled. Each marshal and
  unmarshal is an oracle result. The hello decode yields the declared
  version or nothing, and the Ack decode yields only success or failure.
- SCM_RIGHTS ancillary data is not modelled at the byte level. A write
  records which path's descriptor it carries (`rights`). `WriteMsgUnix`
  reports one success or failure for the payload and the descriptor
  together.
- The accept loop, its temporary and fatal accept errors, the goroutine
  that closes the listener on context cancellation, and the WaitGroup
  (lines 132-155) are not modelled. Sessions run one at a time inside that
  loop, so a single connection is the whole unit the model covers.
- The shared 1024-byte read buffer is not modelled. Message framing and
  messages longer than one read are not modelled either. A hello read
  yields one whole message or a failure. An Ack read can report a failure
  and still leave bytes that decode (`AckIo(true, true)`), and the session
  then goes on.
- The byte count returned by a failed Ack read decides what `readAck`
  decodes. The model treats the Ack decode as an oracle independent of the
  read's failure flag. An empty buffer decodes as an empty Ack, which the
  oracle can express.
- `time.Now().UnixNano()` is an input, one timestamp per path. Nothing
  about the clock is assumed. If two paths get the same nanosecond they
  get the same identifier, as `Zds.WorkloadIdInjective` shows.
- `NewShim`, with its socket-path setup, and all of `main.go` are not
  part of this model.
- Logging is not modelled; it has no effect on the protocol.
- The contents of the Ack are not modelled, because `readAck` does not
  look at them.

=== FILE: decimal.dfy ===
/** Decimal rendering of integers, as Go's `%d` verb prints an `int64`,
    together with the parser that inverts it. */
module Decimal {
  import opened Wrappers

  predicate IsDigit(c: char) {
    '0' <= c <= '9'
  }

  predicate AllDigits(s: string) {
    forall i :: 0 <= i < |s| ==> IsDigit(s[i])
  }

  function DigitChar(d: nat): (c: char)
    requires d < 10
    ensures IsDigit(c)
  {
    ('0' as int + d) as char
  }

  function DigitValue(c: char): (d: nat)
    requires IsDigit(c)
    ensures d < 10
    ensures DigitChar(d) == c
  {
    c as int - '0' as int
  }

  /** The digits of `n`, most significant first, with no leading zero. */
  function NatDigits(n: nat): (s: string)
    ensures 1 <= |s|
    ensures AllDigits(s)
    ensures s[0] == '0' ==> n == 0
    decreases n
  {
    if n < 10 then [DigitChar(n)] else NatDigits(n / 10) + [DigitChar(n % 10)]
  }

  /** `%d`: a minus sign for negative values, then the digits of the magnitude. */
  function FormatInt(n: int): (s: string)
    ensures 1 <= |s|
    ensures s[0] == '-' <==> n < 0
  {
    if n < 0 then "-" + NatDigits(-n) else NatDigits(n)
  }

  /** The value of a non-empty digit string, read most significant first. */
  function ParseNat(s: string): nat
    requires 1 <= |s| && AllDigits(s)
    decreases |s|
  {
    if |s| == 1 then DigitValue(s[0])
    else ParseNat(s[..|s| - 1]) * 10 + DigitValue(s[|s| - 1])
  }

  /** Reads an optionally negative decimal integer; anything else is `None`. */
  function ParseInt(s: string): Option<int> {
    if 2 <= |s| && s[0] == '-' && AllDigits(s[1..]) then Some(-(ParseNat(s[1..]) as int))
    else if 1 <= |s| && AllDigits(s) then Some(ParseNat(s))
    else None
  }

  lemma {:induction false} NatDigitsRoundTrip(n: nat)
    ensures ParseNat(NatDigits(n)) == n
    decreases n
  {
    if n >= 10 {
      NatDigitsRoundTrip(n / 10);
      var s := NatDigits(n);
      assert s[..|s| - 1] == NatDigits(n / 10);
      assert DigitValue(s[|s| - 1]) == n % 10;
    }
  }

  /** Parsing what `%d` printed gives back the printed value. */
  lemma FormatIntRoundTrip(n: int)
    ensures ParseInt(FormatInt(n)) == Some(n)
  {
    var s := FormatInt(n);
    if n < 0 {
      assert s[1..] == NatDigits(-n);
      NatDigitsRoundTrip(-n);
    } else {
      NatDigitsRoundTrip(n);
    }
  }

  /** `%d` never pads: after the optional sign comes at least one digit,
      all of them are digits, and the first is '0' only for zero. */
  lemma FormatIntNoPadding(n: int)
    ensures var s, d := FormatInt(n), if n < 0 then 1 else 0;
      d < |s| && AllDigits(s[d..]) && (s[d] == '0' ==> n == 0)
  {
    if n < 0 {
      assert FormatInt(n)[1..] == NatDigits(-n);
    }
  }

  /** Distinct values print differently. */
  lemma FormatIntInjective(a: int, b: int)
    ensures FormatInt(a) == FormatInt(b) <==> a == b
  {
    if FormatInt(a) == FormatInt(b) {
      FormatIntRoundTrip(a);
      FormatIntRoundTrip(b);
    }
  }
}

=== FILE: properties.dfy ===
/** Properties of the ZDS session: the version gate, strict send/ack
    alternation in path order, fail-fast registration, the cast check before
    the open, balanced netns handles, the shape of each registration, and the
    two behaviours of the source that are easy to miss: an Ack read error is
    never looked at, and a finished session leaves the connection open. */
module ShimProperties {
  import opened Wrappers
  import opened Zds
  import opened Trace
  import opened Shim

  /** The i-th registration as it goes on the wire: one write carrying the
      AddWorkload request and, as ancillary data, the i-th path's descriptor. */
  function AddSend(paths: seq<string>, io: nat -> TargetIo, i: nat): (e: Event)
    requires i < |paths|
    ensures e.Sent? && e.request.Add? && SingleId(e.request.add)
    ensures e.rights == Some(paths[i])
    ensures ParseWorkloadId(e.request.add.uid) == Some(io(i).timestamp as int)
  {
    Sent(AddWorkloadRequest(io(i).timestamp), Some(paths[i]))
  }

  /** The registrations of paths `i..` in path order. */
  function TargetSends(paths: seq<string>, io: nat -> TargetIo, i: nat): (s: seq<Event>)
    requires i <= |paths|
  {
    seq(|paths| - i, k requires 0 <= k < |paths| - i => AddSend(paths, io, i + k))
  }

  lemma TargetSendsUnfold(paths: seq<string>, io: nat -> TargetIo, i: nat)
    requires i < |paths|
    ensures TargetSends(paths, io, i) == [AddSend(paths, io, i)] + TargetSends(paths, io, i + 1)
  {
    var s, t := TargetSends(paths, io, i), TargetSends(paths, io, i + 1);
    assert forall k :: 0 <= k < |t| ==> s[k + 1] == t[k];
    assert s == [s[0]] + t;
  }

  /** Every write a session that runs to the end performs, in order. */
  function PlannedSends(paths: seq<string>, env: Env): (s: seq<Event>)
    ensures |s| == |paths| + 1
    ensures s[0] == Sent(SnapshotSent, None)
    ensures forall k :: 0 <= k < |paths| ==> s[k + 1] == AddSend(paths, env.target, k)
  {
    var plan := TargetSends(paths, env.target, 0);
    var s := [Sent(SnapshotSent, None)] + plan;
    assert forall k :: 0 <= k < |paths| ==> s[k + 1] == plan[k];
    s
  }

  /** The registrations of paths `i..`, each followed by the Ack read that answers it. */
  function TargetExchanges(paths: seq<string>, io: nat -> TargetIo, i: nat): (x: seq<Event>)
    requires i <= |paths|
    ensures |x| == 2 * (|paths| - i)
    ensures Alternating(x)
    decreases |paths| - i
  {
    if i == |paths| then []
    else
      var rest := TargetExchanges(paths, io, i + 1);
      var x := [AddSend(paths, io, i), AckRead(io(i).ack.readFails)] + rest;
      assert x[2..] == rest;
      x
  }

  /** The exchange of a session that runs to the end: SnapshotSent, its Ack,
      then one AddWorkload and its Ack per path. */
  function PlannedExchanges(paths: seq<string>, env: Env): (x: seq<Event>)
    ensures |x| == 2 * (|paths| + 1)
    ensures Alternating(x)
  {
    var rest := TargetExchanges(paths, env.target, 0);
    var x := [Sent(SnapshotSent, None), AckRead(env.snapshotAck.readFails)] + rest;
    assert x[2..] == rest;
    x
  }

  lemma ProjectSingle(e: Event, keep: Event -> bool)
    ensures Project([e], keep) == if keep(e) then [e] else []
  {
    assert [e][1..] == [];
  }

  /** Two selections that agree on every event of `t` select the same events. */
  lemma {:induction false} ProjectAgree(t: seq<Event>, k1: Event -> bool, k2: Event -> bool)
    requires forall e :: e in t ==> k1(e) == k2(e)
    ensures Project(t, k1) == Project(t, k2)
    decreases |t|
  {
    if |t| > 0 {
      assert forall e :: e in t[1..] ==> e in t;
      ProjectAgree(t[1..], k1, k2);
    }
  }

  /** In an alternating exchange, half of the events are Ack reads. */
  lemma {:induction false} AlternatingAckReads(x: seq<Event>)
    requires Alternating(x)
    ensures 2 * |AckReads(x)| == |x|
    decreases |x|
  {
    if |x| > 0 {
      assert x == [x[0], x[1]] + x[2..];
      assert [x[0], x[1]] == [x[0]] + [x[1]];
      ProjectSingle(x[0], IsAckRead);
      ProjectSingle(x[1], IsAckRead);
      ProjectAppend([x[0]], [x[1]], IsAckRead);
      ProjectAppend([x[0], x[1]], x[2..], IsAckRead);
      AlternatingAckReads(x[2..]);
    }
  }

  /** The Ack read after a registration adds no write. */
  lemma RegisteredSends(unixConn: bool, path: string, io: TargetIo)
    ensures var w := WriteAddWorkload(unixConn, path, io);
      Sends(w.events + [AckRead(io.ack.readFails)]) == Sends(w.events)
  {
    var w := WriteAddWorkload(unixConn, path, io);
    ProjectSingle(AckRead(io.ack.readFails), IsSend);
    ProjectAppend(w.events, [AckRead(io.ack.readFails)], IsSend);
    assert Sends(w.events) + [] == Sends(w.events);
  }

  /** In the exchange view a registration is its write and the Ack read after it. */
  lemma RegisteredExchanges(unixConn: bool, path: string, io: TargetIo)
    ensures var w := WriteAddWorkload(unixConn, path, io);
      Exchanges(w.events + [AckRead(io.ack.readFails)]) == Sends(w.events) + [AckRead(io.ack.readFails)]
  {
    var w := WriteAddWorkload(unixConn, path, io);
    assert forall e :: e in w.events ==> !e.AckRead? by {
      if w.events != [] {
        var request := Sent(AddWorkloadRequest(io.timestamp), Some(path));
        assert w.events == [NetnsOpened(path), NetnsClosed(path)]
            || w.events == [NetnsOpened(path), request, NetnsClosed(path)];
      }
    }
    ProjectAgree(w.events, IsExchange, IsSend);
    ProjectSingle(AckRead(io.ack.readFails), IsExchange);
    ProjectAppend(w.events, [AckRead(io.ack.readFails)], IsExchange);
  }

  /** A registration and its Ack read leave no handle open. */
  lemma RegisteredBalanced(unixConn: bool, path: string, io: TargetIo)
    ensures var w := WriteAddWorkload(unixConn, path, io);
      HandlesBalanced(w.events + [AckRead(io.ack.readFails)], None)
  {
    var w := WriteAddWorkload(unixConn, path, io);
    var read := [AckRead(io.ack.readFails)];
    assert read[1..] == [];
    HandlesBalancedAppend(w.events, read, None);
  }

  /** The registration loop writes a prefix of its plan, and the whole plan
      when it finishes. */
  lemma {:induction false} TargetsFollowPlan(unixConn: bool, paths: seq<string>, io: nat -> TargetIo, i: nat)
    requires i <= |paths|
    ensures Sends(RunTargets(unixConn, paths, io, i).trace) <= TargetSends(paths, io, i)
    ensures RunTargets(unixConn, paths, io, i).terminal == Done ==>
      Sends(RunTargets(unixConn, paths, io, i).trace) == TargetSends(paths, io, i)
    decreases |paths| - i
  {
    if i < |paths| {
      var r := RunTargets(unixConn, paths, io, i);
      var w := WriteAddWorkload(unixConn, paths[i], io(i));
      var registered := w.events + [AckRead(io(i).ack.readFails)];
      var add := AddSend(paths, io, i);
      TargetSendsUnfold(paths, io, i);
      if w.result.Fail? {
        assert r.trace == w.events;
      } else {
        RegisteredSends(unixConn, paths[i], io(i));
        if !io(i).ack.decodes {
          assert r.trace == registered;
        } else {
          var rest := RunTargets(unixConn, paths, io, i + 1);
          assert r.trace == registered + rest.trace;
          TargetsFollowPlan(unixConn, paths, io, i + 1);
          ProjectAppend(registered, rest.trace, IsSend);
          assert Sends(r.trace) == [add] + Sends(rest.trace);
          PrefixExtend([add], Sends(rest.trace), TargetSends(paths, io, i + 1));
        }
      }
    }
  }

  /** A registration loop that finishes shows, in the exchange view, each
      registration followed by its Ack read. */
  lemma {:induction false} TargetsExchange(unixConn: bool, paths: seq<string>, io: nat -> TargetIo, i: nat)
    requires i <= |paths|
    requires RunTargets(unixConn, paths, io, i).terminal == Done
    ensures Exchanges(RunTargets(unixConn, paths, io, i).trace) == TargetExchanges(paths, io, i)
    decreases |paths| - i
  {
    if i < |paths| {
      var w := WriteAddWorkload(unixConn, paths[i], io(i));
      var read := AckRead(io(i).ack.readFails);
      var registered := w.events + [read];
      var rest := RunTargets(unixConn, paths, io, i + 1);
      assert RunTargets(unixConn, paths, io, i).trace == registered + rest.trace;
      assert Sends(w.events) == [AddSend(paths, io, i)];
      TargetsExchange(unixConn, paths, io, i + 1);
      RegisteredExchanges(unixConn, paths[i], io(i));
      ProjectAppend(registered, rest.trace, IsExchange);
      assert [AddSend(paths, io, i)] + [read] == [AddSend(paths, io, i), read];
    }
  }

  /** A registration whose write fails takes part in no exchange. */
  lemma FailedWriteExchanges(unixConn: bool, path: string, io: TargetIo)
    requires WriteAddWorkload(unixConn, path, io).result.Fail?
    ensures Exchanges(WriteAddWorkload(unixConn, path, io).events) == []
  {
    var w := WriteAddWorkload(unixConn, path, io);
    assert forall e :: e in w.events ==> !e.AckRead? by {
      if w.events != [] {
        assert w.events == [NetnsOpened(path), NetnsClosed(path)];
      }
    }
    ProjectAgree(w.events, IsExchange, IsSend);
  }

  /** One step of the registration loop in the exchange view: a write that
      goes through is followed by its Ack read, and the loop goes on only
      if that Ack decodes. */
  lemma TargetExchangeStep(unixConn: bool, paths: seq<string>, io: nat -> TargetIo, i: nat)
    requires i < |paths|
    requires WritePasses(unixConn, io(i))
    ensures Exchanges(RunTargets(unixConn, paths, io, i).trace) ==
      [AddSend(paths, io, i), AckRead(io(i).ack.readFails)] +
      (if io(i).ack.decodes then Exchanges(RunTargets(unixConn, paths, io, i + 1).trace) else [])
  {
    var w := WriteAddWorkload(unixConn, paths[i], io(i));
    var read := AckRead(io(i).ack.readFails);
    var registered := w.events + [read];
    var pair := [AddSend(paths, io, i), read];
    RegisteredExchanges(unixConn, paths[i], io(i));
    assert Exchanges(registered) == pair;
    if io(i).ack.decodes {
      var rest := RunTargets(unixConn, paths, io, i + 1);
      assert RunTargets(unixConn, paths, io, i).trace == registered + rest.trace;
      ProjectAppend(registered, rest.trace, IsExchange);
    } else {
      assert RunTargets(unixConn, paths, io, i).trace == registered;
      assert pair + [] == pair;
    }
  }

  /** A registration loop whose current write fails exchanges nothing more. */
  lemma TargetExchangeFails(unixConn: bool, paths: seq<string>, io: nat -> TargetIo, i: nat)
    requires i < |paths|
    requires !WritePasses(unixConn, io(i))
    ensures Exchanges(RunTargets(unixConn, paths, io, i).trace) == []
  {
    var w := WriteAddWorkload(unixConn, paths[i], io(i));
    assert RunTargets(unixConn, paths, io, i).trace == w.events;
    FailedWriteExchanges(unixConn, paths[i], io(i));
  }

  lemma TargetExchangesUnfold(paths: seq<string>, io: nat -> TargetIo, i: nat)
    requires i < |paths|
    ensures TargetExchanges(paths, io, i) ==
      [AddSend(paths, io, i), AckRead(io(i).ack.readFails)] + TargetExchanges(paths, io, i + 1)
  {
  }

  /** A registration whose Ack decodes extends the loop's exchange prefix by
      its own write and Ack read. */
  lemma ExchangePrefixStep(unixConn: bool, paths: seq<string>, io: nat -> TargetIo, i: nat)
    requires i < |paths| && TargetPasses(unixConn, io(i))
    requires Exchanges(RunTargets(unixConn, paths, io, i + 1).trace) <= TargetExchanges(paths, io, i + 1)
    ensures Exchanges(RunTargets(unixConn, paths, io, i).trace) <= TargetExchanges(paths, io, i)
  {
    var pair := [AddSend(paths, io, i), AckRead(io(i).ack.readFails)];
    TargetExchangeStep(unixConn, paths, io, i);
    TargetExchangesUnfold(paths, io, i);
    PrefixExtend(pair, Exchanges(RunTargets(unixConn, paths, io, i + 1).trace), TargetExchanges(paths, io, i + 1));
  }

  /** A loop that stops at path i, by a failed write or an Ack that does not
      decode, has exchanged at most the plan up to path i. */
  lemma ExchangePrefixStop(unixConn: bool, paths: seq<string>, io: nat -> TargetIo, i: nat)
    requires i < |paths| && !TargetPasses(unixConn, io(i))
    ensures Exchanges(RunTargets(unixConn, paths, io, i).trace) <= TargetExchanges(paths, io, i)
  {
    if !WritePasses(unixConn, io(i)) {
      TargetExchangeFails(unixConn, paths, io, i);
    } else {
      var pair := [AddSend(paths, io, i), AckRead(io(i).ack.readFails)];
      TargetExchangeStep(unixConn, paths, io, i);
      TargetExchangesUnfold(paths, io, i);
      PrefixExtend(pair, [], TargetExchanges(paths, io, i + 1));
      assert pair + [] == pair;
    }
  }

  /** However the registration loop ends, its exchange is a prefix of the
      alternating plan: no registration is written before the previous
      one's Ack has been read. */
  lemma {:induction false} TargetsExchangePrefix(unixConn: bool, paths: seq<string>, io: nat -> TargetIo, i: nat)
    requires i <= |paths|
    ensures Exchanges(RunTargets(unixConn, paths, io, i).trace) <= TargetExchanges(paths, io, i)
    decreases |paths| - i, 1
  {
    if i < |paths| {
      ExchangePrefixFrom(unixConn, paths, io, i);
    } else {
      TargetsExchangeEnd(unixConn, paths, io, i);
    }
  }

  lemma {:induction false} ExchangePrefixFrom(unixConn: bool, paths: seq<string>, io: nat -> TargetIo, i: nat)
    requires i < |paths|
    ensures Exchanges(RunTargets(unixConn, paths, io, i).trace) <= TargetExchanges(paths, io, i)
    decreases |paths| - i, 0
  {
    if TargetPasses(unixConn, io(i)) {
      TargetsExchangePrefix(unixConn, paths, io, i + 1);
      ExchangePrefixStep(unixConn, paths, io, i);
    } else {
      ExchangePrefixStop(unixConn, paths, io, i);
    }
  }

  lemma TargetsExchangeEnd(unixConn: bool, paths: seq<string>, io: nat -> TargetIo, i: nat)
    requires i == |paths|
    ensures Exchanges(RunTargets(unixConn, paths, io, i).trace) <= TargetExchanges(paths, io, i)
  {
    assert RunTargets(unixConn, paths, io, i).trace == [];
  }

  /** The registration loop keeps the handle discipline however it ends. */
  lemma {:induction false} TargetsBalanced(unixConn: bool, paths: seq<string>, io: nat -> TargetIo, i: nat)
    requires i <= |paths|
    ensures HandlesBalanced(RunTargets(unixConn, paths, io, i).trace, None)
    decreases |paths| - i
  {
    if i < |paths| {
      var w := WriteAddWorkload(unixConn, paths[i], io(i));
      if w.result.Fail? {
        assert RunTargets(unixConn, paths, io, i).trace == w.events;
      } else {
        var registered := w.events + [AckRead(io(i).ack.readFails)];
        RegisteredBalanced(unixConn, paths[i], io(i));
        if !io(i).ack.decodes {
          assert RunTargets(unixConn, paths, io, i).trace == registered;
        } else {
          var rest := RunTargets(unixConn, paths, io, i + 1);
          assert RunTargets(unixConn, paths, io, i).trace == registered + rest.trace;
          TargetsBalanced(unixConn, paths, io, i + 1);
          HandlesBalancedAppend(registered, rest.trace, None);
        }
      }
    }
  }

  /** A registration loop that reaches a path whose write fails performs at
      most one write for each path before it. */
  lemma {:induction false} TargetsStopAt(unixConn: bool, paths: seq<string>, io: nat -> TargetIo, k: nat, i: nat)
    requires k <= i < |paths|
    requires !WritePasses(unixConn, io(i))
    ensures |Sends(RunTargets(unixConn, paths, io, k).trace)| <= i - k
    decreases i - k
  {
    var w := WriteAddWorkload(unixConn, paths[k], io(k));
    if w.result.Fail? {
      assert RunTargets(unixConn, paths, io, k).trace == w.events;
    } else {
      var registered := w.events + [AckRead(io(k).ack.readFails)];
      RegisteredSends(unixConn, paths[k], io(k));
      assert k < i;
      if !io(k).ack.decodes {
        assert RunTargets(unixConn, paths, io, k).trace == registered;
      } else {
        var rest := RunTargets(unixConn, paths, io, k + 1);
        assert RunTargets(unixConn, paths, io, k).trace == registered + rest.trace;
        TargetsStopAt(unixConn, paths, io, k + 1, i);
        ProjectAppend(registered, rest.trace, IsSend);
      }
    }
  }

  /** How many registrations the loop writes from path k on, counted
      directly from the outcomes of each path: a path whose write goes
      through counts once, and the loop goes on only past a path that passes. */
  function LoopWrites(unixConn: bool, paths: seq<string>, io: nat -> TargetIo, k: nat): (n: nat)
    requires k <= |paths|
    decreases |paths| - k
  {
    if k == |paths| || !WritePasses(unixConn, io(k)) then 0
    else 1 + (if io(k).ack.decodes then LoopWrites(unixConn, paths, io, k + 1) else 0)
  }

  /** The loop's trace records exactly as many writes as `LoopWrites` counts. */
  lemma {:induction false} TargetsWriteCount(unixConn: bool, paths: seq<string>, io: nat -> TargetIo, k: nat)
    requires k <= |paths|
    ensures |Sends(RunTargets(unixConn, paths, io, k).trace)| == LoopWrites(unixConn, paths, io, k)
    decreases |paths| - k
  {
    if k < |paths| {
      var w := WriteAddWorkload(unixConn, paths[k], io(k));
      if w.result.Fail? {
        assert RunTargets(unixConn, paths, io, k).trace == w.events;
      } else {
        var registered := w.events + [AckRead(io(k).ack.readFails)];
        RegisteredSends(unixConn, paths[k], io(k));
        if !io(k).ack.decodes {
          assert RunTargets(unixConn, paths, io, k).trace == registered;
        } else {
          var rest := RunTargets(unixConn, paths, io, k + 1);
          assert RunTargets(unixConn, paths, io, k).trace == registered + rest.trace;
          TargetsWriteCount(unixConn, paths, io, k + 1);
          ProjectAppend(registered, rest.trace, IsSend);
        }
      }
    }
  }

  /** The loop writes at most once per path up to the first path that does not pass. */
  lemma {:induction false} LoopWritesStop(unixConn: bool, paths: seq<string>, io: nat -> TargetIo, k: nat, i: nat)
    requires k <= i < |paths|
    requires !TargetPasses(unixConn, io(i))
    ensures LoopWrites(unixConn, paths, io, k) <= i - k + 1
    decreases i - k
  {
    if k < i && TargetPasses(unixConn, io(k)) {
      LoopWritesStop(unixConn, paths, io, k + 1, i);
    }
  }

  /** A registration loop that reaches a path that does not pass, by a
      failed write or an Ack that does not decode, performs no write after
      that path's own. */
  lemma TargetsStopAtAny(unixConn: bool, paths: seq<string>, io: nat -> TargetIo, k: nat, i: nat)
    requires k <= i < |paths|
    requires !TargetPasses(unixConn, io(i))
    ensures |Sends(RunTargets(unixConn, paths, io, k).trace)| <= i - k + 1
  {
    TargetsWriteCount(unixConn, paths, io, k);
    LoopWritesStop(unixConn, paths, io, k, i);
  }

  /** The netns paths a loop from path i on opens when every registration
      passes: each path once, in path order. */
  function PlannedOpens(paths: seq<string>, i: nat): (s: seq<Event>)
    requires i <= |paths|
    ensures |s| == |paths| - i
    decreases |paths| - i
  {
    if i == |paths| then [] else [NetnsOpened(paths[i])] + PlannedOpens(paths, i + 1)
  }

  /** The netns paths the loop opens from path k on, computed directly from
      the outcomes of each path: a path is opened once its request marshals
      on a Unix connection and its open succeeds, and the loop goes on only
      past a path that passes. */
  function LoopOpens(unixConn: bool, paths: seq<string>, io: nat -> TargetIo, k: nat): (s: seq<Event>)
    requires k <= |paths|
    decreases |paths| - k
  {
    if k == |paths| || !OpensNetns(unixConn, io(k)) then []
    else [NetnsOpened(paths[k])] + (if TargetPasses(unixConn, io(k)) then LoopOpens(unixConn, paths, io, k + 1) else [])
  }

  /** A registration opens its own path, and only that one, exactly when it
      gets past the marshal, the cast and the open; the Ack read after it
      opens nothing. */
  lemma RegisteredOpens(unixConn: bool, path: string, io: TargetIo)
    ensures Opens(WriteAddWorkload(unixConn, path, io).events) ==
      (if OpensNetns(unixConn, io) then [NetnsOpened(path)] else [])
    ensures Opens(WriteAddWorkload(unixConn, path, io).events + [AckRead(io.ack.readFails)]) ==
      (if OpensNetns(unixConn, io) then [NetnsOpened(path)] else [])
  {
    var w := WriteAddWorkload(unixConn, path, io);
    var read := AckRead(io.ack.readFails);
    ProjectSingle(read, IsOpen);
    ProjectAppend(w.events, [read], IsOpen);
    if OpensNetns(unixConn, io) {
      var opening := NetnsOpened(path);
      var after := w.events[1..];
      assert w.events == [opening] + after;
      assert after == [NetnsClosed(path)] || after == [Sent(AddWorkloadRequest(io.timestamp), Some(path)), NetnsClosed(path)];
      ProjectSingle(opening, IsOpen);
      ProjectAppend([opening], after, IsOpen);
      ProjectNone(after, IsOpen);
      assert Opens(w.events) + [] == Opens(w.events);
    }
  }

  /** The loop's trace opens exactly the paths `LoopOpens` lists, in order. */
  lemma {:induction false} TargetsOpenLoop(unixConn: bool, paths: seq<string>, io: nat -> TargetIo, k: nat)
    requires k <= |paths|
    ensures Opens(RunTargets(unixConn, paths, io, k).trace) == LoopOpens(unixConn, paths, io, k)
    decreases |paths| - k
  {
    if k < |paths| {
      var w := WriteAddWorkload(unixConn, paths[k], io(k));
      var opening := [NetnsOpened(paths[k])];
      RegisteredOpens(unixConn, paths[k], io(k));
      assert opening + [] == opening;
      if w.result.Fail? {
        assert RunTargets(unixConn, paths, io, k).trace == w.events;
      } else {
        var registered := w.events + [AckRead(io(k).ack.readFails)];
        if !io(k).ack.decodes {
          assert RunTargets(unixConn, paths, io, k).trace == registered;
        } else {
          var rest := RunTargets(unixConn, paths, io, k + 1);
          assert RunTargets(unixConn, paths, io, k).trace == registered + rest.trace;
          TargetsOpenLoop(unixConn, paths, io, k + 1);
          ProjectAppend(registered, rest.trace, IsOpen);
        }
      }
    }
  }

  /** The loop opens a prefix of its planned paths. */
  lemma {:induction false} LoopOpensPlan(unixConn: bool, paths: seq<string>, io: nat -> TargetIo, k: nat)
    requires k <= |paths|
    ensures LoopOpens(unixConn, paths, io, k) <= PlannedOpens(paths, k)
    decreases |paths| - k
  {
    if k < |paths| && OpensNetns(unixConn, io(k)) {
      var opening := [NetnsOpened(paths[k])];
      assert PlannedOpens(paths, k) == opening + PlannedOpens(paths, k + 1);
      if TargetPasses(unixConn, io(k)) {
        LoopOpensPlan(unixConn, paths, io, k + 1);
        PrefixExtend(opening, LoopOpens(unixConn, paths, io, k + 1), PlannedOpens(paths, k + 1));
      } else {
        PrefixExtend(opening, [], PlannedOpens(paths, k + 1));
        assert opening + [] == opening;
      }
    }
  }

  /** The loop opens at most one path per path up to the first that does not pass. */
  lemma {:induction false} LoopOpensStop(unixConn: bool, paths: seq<string>, io: nat -> TargetIo, k: nat, i: nat)
    requires k <= i < |paths|
    requires !TargetPasses(unixConn, io(i))
    ensures |LoopOpens(unixConn, paths, io, k)| <= i - k + 1
    decreases i - k
  {
    if k < i && TargetPasses(unixConn, io(k)) {
      LoopOpensStop(unixConn, paths, io, k + 1, i);
    }
  }

  /** The registration loop opens its paths in path order, each at most
      once, none skipped: a prefix of its plan. */
  lemma TargetsOpenPlan(unixConn: bool, paths: seq<string>, io: nat -> TargetIo, k: nat)
    requires k <= |paths|
    ensures Opens(RunTargets(unixConn, paths, io, k).trace) <= PlannedOpens(paths, k)
  {
    TargetsOpenLoop(unixConn, paths, io, k);
    LoopOpensPlan(unixConn, paths, io, k);
  }

  /** A registration loop that reaches a path that does not pass opens no
      path after that one. */
  lemma TargetsOpensStop(unixConn: bool, paths: seq<string>, io: nat -> TargetIo, k: nat, i: nat)
    requires k <= i < |paths|
    requires !TargetPasses(unixConn, io(i))
    ensures |Opens(RunTargets(unixConn, paths, io, k).trace)| <= i - k + 1
  {
    TargetsOpenLoop(unixConn, paths, io, k);
    LoopOpensStop(unixConn, paths, io, k, i);
  }

  /** The events up to and including the first Ack of a session whose
      handshake goes through. */
  function HandshakeTrace(env: Env): seq<Event> {
    [HelloRead(false)] + [Sent(SnapshotSent, None)] + [AckRead(env.snapshotAck.readFails)]
  }

  lemma HandshakeViews(env: Env)
    ensures Sends(HandshakeTrace(env)) == [Sent(SnapshotSent, None)]
    ensures Exchanges(HandshakeTrace(env)) == [Sent(SnapshotSent, None), AckRead(env.snapshotAck.readFails)]
    ensures HandlesBalanced(HandshakeTrace(env), None)
  {
    var a, b, c := HelloRead(false), Sent(SnapshotSent, None), AckRead(env.snapshotAck.readFails);
    ProjectSingle(a, IsSend);
    ProjectSingle(b, IsSend);
    ProjectSingle(c, IsSend);
    ProjectSingle(a, IsExchange);
    ProjectSingle(b, IsExchange);
    ProjectSingle(c, IsExchange);
    ProjectAppend([a], [b], IsSend);
    ProjectAppend([a] + [b], [c], IsSend);
    ProjectAppend([a], [b], IsExchange);
    ProjectAppend([a] + [b], [c], IsExchange);
    var t := HandshakeTrace(env);
    assert t[1..] == [b, c] && t[1..][1..] == [c] && t[1..][1..][1..] == [];
    assert HandlesBalanced(t[1..][1..], None);
    assert HandlesBalanced(t[1..], None);
  }

  /** A session whose handshake goes through is the handshake followed by
      the registration loop. */
  lemma ConverseAfterHandshake(paths: seq<string>, env: Env)
    requires HandshakePasses(env)
    ensures Converse(paths, env) == Run(
      HandshakeTrace(env) + RunTargets(env.unixConn, paths, env.target, 0).trace,
      RunTargets(env.unixConn, paths, env.target, 0).terminal)
  {
  }

  /** What the session writes before cleanup, stage by stage. */
  lemma ConverseSends(paths: seq<string>, env: Env)
    ensures Sends(Converse(paths, env).trace) ==
      (if HandshakePasses(env) then [Sent(SnapshotSent, None)] + Sends(RunTargets(env.unixConn, paths, env.target, 0).trace)
       else if HelloAccepted(env.hello) && env.snapshotMarshals && env.snapshotWrites then [Sent(SnapshotSent, None)]
       else [])
  {
    var c := Converse(paths, env);
    if HandshakePasses(env) {
      HandshakeViews(env);
      ConverseAfterHandshake(paths, env);
      ProjectAppend(HandshakeTrace(env), RunTargets(env.unixConn, paths, env.target, 0).trace, IsSend);
    } else if HelloAccepted(env.hello) && env.snapshotMarshals && env.snapshotWrites {
      HandshakeViews(env);
      assert c.trace == HandshakeTrace(env);
    } else {
      var first := HelloRead(env.hello.HelloReadFails?);
      ProjectSingle(first, IsSend);
      assert c.trace == [first];
    }
  }

  /** The session keeps the handle discipline up to cleanup. */
  lemma ConverseBalanced(paths: seq<string>, env: Env)
    ensures HandlesBalanced(Converse(paths, env).trace, None)
  {
    var c := Converse(paths, env);
    if HandshakePasses(env) {
      HandshakeViews(env);
      ConverseAfterHandshake(paths, env);
      TargetsBalanced(env.unixConn, paths, env.target, 0);
      HandlesBalancedAppend(HandshakeTrace(env), RunTargets(env.unixConn, paths, env.target, 0).trace, None);
    } else if HelloAccepted(env.hello) && env.snapshotMarshals && env.snapshotWrites {
      HandshakeViews(env);
      assert c.trace == HandshakeTrace(env);
    } else {
      var first := HelloRead(env.hello.HelloReadFails?);
      assert c.trace == [first];
      assert [first][1..] == [];
    }
  }

  /** Closing the connection at cleanup writes nothing and awaits nothing. */
  lemma CleanupViews(paths: seq<string>, env: Env)
    ensures Sends(RunSession(paths, env).trace) == Sends(Converse(paths, env).trace)
    ensures Exchanges(RunSession(paths, env).trace) == Exchanges(Converse(paths, env).trace)
  {
    var c := Converse(paths, env);
    if c.terminal.Error? {
      ProjectSingle(ConnClosed, IsSend);
      ProjectSingle(ConnClosed, IsExchange);
      ProjectAppend(c.trace, [ConnClosed], IsSend);
      ProjectAppend(c.trace, [ConnClosed], IsExchange);
      assert Sends(c.trace) + [] == Sends(c.trace);
      assert Exchanges(c.trace) + [] == Exchanges(c.trace);
    }
  }

  /** Whatever a session writes is its plan cut short: SnapshotSent first,
      then one AddWorkload per path in path order, each carrying its own
      path's descriptor; nothing is written twice, skipped or reordered. */
  lemma SendsFollowPlan(paths: seq<string>, env: Env)
    ensures Sends(RunSession(paths, env).trace) <= PlannedSends(paths, env)
  {
    CleanupViews(paths, env);
    ConverseSends(paths, env);
    var sent := Sends(RunSession(paths, env).trace);
    var snapshot := [Sent(SnapshotSent, None)];
    var plan := TargetSends(paths, env.target, 0);
    assert PlannedSends(paths, env) == snapshot + plan;
    if HandshakePasses(env) {
      var rest := Sends(RunTargets(env.unixConn, paths, env.target, 0).trace);
      TargetsFollowPlan(env.unixConn, paths, env.target, 0);
      assert sent == snapshot + rest;
      PrefixExtend(snapshot, rest, plan);
    } else {
      assert sent == [] || sent == snapshot;
      PrefixExtend(snapshot, [], plan);
    }
  }

  lemma PrefixExtend(a: seq<Event>, b: seq<Event>, c: seq<Event>)
    requires b <= c
    ensures a + b <= a + c
  {
    assert (a + c)[..|a + b|] == a + c[..|b|];
  }

  /** Strict send/Ack alternation for every session, however it ends: its
      exchange is a prefix of SnapshotSent, its Ack, then each path's
      AddWorkload and its Ack in path order. Each write is followed by
      exactly one Ack read before the next write. */
  lemma ExchangesFollowPlan(paths: seq<string>, env: Env)
    ensures Exchanges(RunSession(paths, env).trace) <= PlannedExchanges(paths, env)
    ensures Alternating(PlannedExchanges(paths, env))
  {
    CleanupViews(paths, env);
    if !HelloAccepted(env.hello) || !env.snapshotMarshals || !env.snapshotWrites {
      ExchangesBeforeSnapshot(paths, env);
    } else if !env.snapshotAck.decodes {
      ExchangesAtSnapshotAck(paths, env);
    } else {
      ExchangesAfterHandshake(paths, env);
    }
  }

  /** A session that never gets SnapshotSent out exchanges nothing. */
  lemma ExchangesBeforeSnapshot(paths: seq<string>, env: Env)
    requires !(HelloAccepted(env.hello) && env.snapshotMarshals && env.snapshotWrites)
    ensures Exchanges(Converse(paths, env).trace) <= PlannedExchanges(paths, env)
  {
    var c := Converse(paths, env);
    assert c.trace == [c.trace[0]];
    ProjectSingle(c.trace[0], IsExchange);
  }

  /** A session whose first Ack does not decode has exchanged SnapshotSent and that Ack. */
  lemma ExchangesAtSnapshotAck(paths: seq<string>, env: Env)
    requires HelloAccepted(env.hello) && env.snapshotMarshals && env.snapshotWrites
    requires !env.snapshotAck.decodes
    ensures Exchanges(Converse(paths, env).trace) <= PlannedExchanges(paths, env)
  {
    var pair := [Sent(SnapshotSent, None), AckRead(env.snapshotAck.readFails)];
    var plan := TargetExchanges(paths, env.target, 0);
    assert PlannedExchanges(paths, env) == pair + plan;
    HandshakeViews(env);
    assert Converse(paths, env).trace == HandshakeTrace(env);
    PrefixExtend(pair, [], plan);
    assert pair + [] == pair;
  }

  /** After the handshake the session's exchange is SnapshotSent, its Ack,
      and the registration loop's exchange. */
  lemma ExchangesAfterHandshake(paths: seq<string>, env: Env)
    requires HandshakePasses(env)
    ensures Exchanges(Converse(paths, env).trace) <= PlannedExchanges(paths, env)
  {
    var pair := [Sent(SnapshotSent, None), AckRead(env.snapshotAck.readFails)];
    var plan := TargetExchanges(paths, env.target, 0);
    var rest := RunTargets(env.unixConn, paths, env.target, 0);
    assert PlannedExchanges(paths, env) == pair + plan;
    HandshakeViews(env);
    ConverseAfterHandshake(paths, env);
    ProjectAppend(HandshakeTrace(env), rest.trace, IsExchange);
    TargetsExchangePrefix(env.unixConn, paths, env.target, 0);
    PrefixExtend(pair, Exchanges(rest.trace), plan);
  }

  /** A successful session performs exactly its plan: SnapshotSent and one
      AddWorkload per path in path order, each followed directly by one Ack
      read (N + 1 of them for N paths), and it never closes the connection. */
  lemma SuccessfulSession(paths: seq<string>, env: Env)
    requires SessionPasses(paths, env)
    ensures RunSession(paths, env).terminal == Done
    ensures Sends(RunSession(paths, env).trace) == PlannedSends(paths, env)
    ensures Exchanges(RunSession(paths, env).trace) == PlannedExchanges(paths, env)
    ensures Alternating(Exchanges(RunSession(paths, env).trace))
    ensures |AckReads(RunSession(paths, env).trace)| == |paths| + 1
    ensures ConnClosed !in RunSession(paths, env).trace
  {
    var r := RunSession(paths, env);
    var rest := RunTargets(env.unixConn, paths, env.target, 0);
    CleanupViews(paths, env);
    ConverseSends(paths, env);
    ConverseAfterHandshake(paths, env);
    TargetsFollowPlan(env.unixConn, paths, env.target, 0);
    TargetsExchange(env.unixConn, paths, env.target, 0);
    HandshakeViews(env);
    ProjectAppend(HandshakeTrace(env), rest.trace, IsExchange);
    var x := Exchanges(r.trace);
    AlternatingAckReads(x);
    ProjectNested(r.trace, IsExchange, IsAckRead);
  }

  /** Selecting from a selection equals selecting directly, when the inner
      selection keeps everything the outer one wants. */
  lemma {:induction false} ProjectNested(t: seq<Event>, outer: Event -> bool, inner: Event -> bool)
    requires forall e :: inner(e) ==> outer(e)
    ensures Project(Project(t, outer), inner) == Project(t, inner)
    decreases |t|
  {
    if |t| > 0 {
      ProjectNested(t[1..], outer, inner);
      var head := if outer(t[0]) then [t[0]] else [];
      ProjectAppend(head, Project(t[1..], outer), inner);
      if outer(t[0]) {
        ProjectSingle(t[0], inner);
      }
    }
  }

  /** Fail-fast: once the write for path i fails (marshal, cast, open or
      write), no AddWorkload is sent for path i or any later path, the
      session ends in error and the connection is closed. */
  lemma FailFast(paths: seq<string>, env: Env, i: nat)
    requires i < |paths|
    requires !WritePasses(env.unixConn, env.target(i))
    ensures RunSession(paths, env).terminal.Error?
    ensures Sends(RunSession(paths, env).trace) <= PlannedSends(paths, env)[..i + 1]
    ensures RunSession(paths, env).trace[|RunSession(paths, env).trace| - 1] == ConnClosed
  {
    assert !TargetPasses(env.unixConn, env.target(i));
    SendsFollowPlan(paths, env);
    SendsBeforeFailure(paths, env, i);
    PrefixCut(Sends(RunSession(paths, env).trace), PlannedSends(paths, env), i + 1);
  }

  /** A session whose i-th write fails sends at most the snapshot and one
      request for each earlier path. */
  lemma SendsBeforeFailure(paths: seq<string>, env: Env, i: nat)
    requires i < |paths|
    requires !WritePasses(env.unixConn, env.target(i))
    ensures |Sends(RunSession(paths, env).trace)| <= i + 1
  {
    CleanupViews(paths, env);
    ConverseSends(paths, env);
    if HandshakePasses(env) {
      TargetsStopAt(env.unixConn, paths, env.target, 0, i);
    }
  }

  lemma PrefixCut(s: seq<Event>, plan: seq<Event>, n: nat)
    requires s <= plan && |s| <= n <= |plan|
    ensures s <= plan[..n]
  {
    assert plan[..n][..|s|] == plan[..|s|];
  }

  /** Fail-fast on any target: once path i does not pass, whether its write
      fails or its Ack does not decode, the session ends in error and
      writes nothing beyond path i's own AddWorkload. */
  lemma FailFastAck(paths: seq<string>, env: Env, i: nat)
    requires i < |paths|
    requires !TargetPasses(env.unixConn, env.target(i))
    ensures RunSession(paths, env).terminal.Error?
    ensures Sends(RunSession(paths, env).trace) <= PlannedSends(paths, env)[..i + 2]
  {
    SendsFollowPlan(paths, env);
    SendsBeforeStop(paths, env, i);
    PrefixCut(Sends(RunSession(paths, env).trace), PlannedSends(paths, env), i + 2);
  }

  lemma SendsBeforeStop(paths: seq<string>, env: Env, i: nat)
    requires i < |paths|
    requires !TargetPasses(env.unixConn, env.target(i))
    ensures |Sends(RunSession(paths, env).trace)| <= i + 2
  {
    CleanupViews(paths, env);
    ConverseSends(paths, env);
    if HandshakePasses(env) {
      TargetsStopAtAny(env.unixConn, paths, env.target, 0, i);
    }
  }

  /** A snapshot Ack that does not decode ends the session right after that
      Ack read: nothing is registered and the connection is closed. */
  lemma SnapshotAckAborts(paths: seq<string>, env: Env)
    requires HelloAccepted(env.hello) && env.snapshotMarshals && env.snapshotWrites
    requires !env.snapshotAck.decodes
    ensures RunSession(paths, env) == Run(HandshakeTrace(env) + [ConnClosed], Error(AckUnmarshalError))
  {
  }

  /** SnapshotSent goes out exactly when the hello carried version 1 and the
      snapshot was marshalled and written. */
  lemma SnapshotAfterHello(paths: seq<string>, env: Env)
    ensures Sent(SnapshotSent, None) in RunSession(paths, env).trace <==>
      HelloAccepted(env.hello) && env.snapshotMarshals && env.snapshotWrites
  {
    var r := RunSession(paths, env);
    CleanupViews(paths, env);
    ConverseSends(paths, env);
    ProjectMembers(r.trace, IsSend);
  }

  /** Version gate: a hello declaring any version but 1 ends the session in
      error after the one read, and nothing is written. */
  lemma VersionGate(paths: seq<string>, env: Env, version: int)
    requires env.hello == HelloArrives(Some(version))
    requires version != SupportedVersion
    ensures RunSession(paths, env).terminal == Error(UnsupportedVersion(version))
    ensures RunSession(paths, env).trace == [HelloRead(false), ConnClosed]
  {
  }

  /** A failed first read or an undecodable hello aborts the session before
      anything is written or opened. */
  lemma NothingBeforeHello(paths: seq<string>, env: Env)
    requires env.hello == HelloReadFails || env.hello == HelloArrives(None)
    ensures RunSession(paths, env).terminal == Error(if env.hello.HelloReadFails? then HelloReadError else HelloUnmarshalError)
    ensures RunSession(paths, env).trace == [HelloRead(env.hello.HelloReadFails?), ConnClosed]
  {
  }

  /** The cast to a Unix connection is checked before any netns path is
      opened: on another kind of connection no path is ever opened, and a
      session that reaches its first registration fails there. */
  lemma CastBeforeOpen(paths: seq<string>, env: Env)
    requires !env.unixConn
    ensures forall e :: e in RunSession(paths, env).trace ==> !e.NetnsOpened?
    ensures HandshakePasses(env) && 0 < |paths| && env.target(0).marshals ==>
      RunSession(paths, env).terminal == Error(NotUnixConn)
  {
    var r := RunSession(paths, env);
    var c := Converse(paths, env);
    if 0 < |paths| {
      var w := WriteAddWorkload(env.unixConn, paths[0], env.target(0));
      assert RunTargets(env.unixConn, paths, env.target, 0).trace == w.events;
    }
    if HandshakePasses(env) {
      ConverseAfterHandshake(paths, env);
    }
    assert forall e :: e in r.trace ==> e in c.trace || e == ConnClosed;
  }

  /** Every netns handle is opened only while no other is held, its descriptor
      is attached while it is held, and it is closed before the next read;
      none is left open when the session ends, however it ends. */
  lemma NetnsHandlesBalanced(paths: seq<string>, env: Env)
    ensures HandlesBalanced(RunSession(paths, env).trace, None)
  {
    var c := Converse(paths, env);
    ConverseBalanced(paths, env);
    if c.terminal.Error? {
      assert [ConnClosed][1..] == [];
      HandlesBalancedAppend(c.trace, [ConnClosed], None);
    }
  }

  /** Only the registration loop opens netns paths: the handshake and the
      cleanup open none. */
  lemma SessionOpens(paths: seq<string>, env: Env)
    ensures Opens(RunSession(paths, env).trace) ==
      (if HandshakePasses(env) then Opens(RunTargets(env.unixConn, paths, env.target, 0).trace) else [])
  {
    var c := Converse(paths, env);
    if c.terminal.Error? {
      ProjectSingle(ConnClosed, IsOpen);
      ProjectAppend(c.trace, [ConnClosed], IsOpen);
      assert Opens(c.trace) + [] == Opens(c.trace);
    }
    if HandshakePasses(env) {
      OpensAfterHandshake(paths, env);
    } else {
      OpensBeforeLoop(paths, env);
    }
  }

  lemma OpensAfterHandshake(paths: seq<string>, env: Env)
    requires HandshakePasses(env)
    ensures Opens(Converse(paths, env).trace) == Opens(RunTargets(env.unixConn, paths, env.target, 0).trace)
  {
    var rest := RunTargets(env.unixConn, paths, env.target, 0);
    ConverseAfterHandshake(paths, env);
    HandshakeOpens(env);
    ProjectAppend(HandshakeTrace(env), rest.trace, IsOpen);
  }

  lemma OpensBeforeLoop(paths: seq<string>, env: Env)
    requires !HandshakePasses(env)
    ensures Opens(Converse(paths, env).trace) == []
  {
    var c := Converse(paths, env);
    if HelloAccepted(env.hello) && env.snapshotMarshals && env.snapshotWrites {
      assert c.trace == HandshakeTrace(env);
      HandshakeOpens(env);
    } else {
      assert c.trace == [c.trace[0]];
      ProjectSingle(c.trace[0], IsOpen);
    }
  }

  lemma HandshakeOpens(env: Env)
    ensures Opens(HandshakeTrace(env)) == []
  {
    var t := HandshakeTrace(env);
    assert forall e :: e in t ==> e == t[0] || e == t[1] || e == t[2];
    ProjectNone(t, IsOpen);
  }

  /** The session opens its netns paths in path order, each at most once,
      none skipped, and only after the handshake: a prefix of its paths. */
  lemma OpensFollowPlan(paths: seq<string>, env: Env)
    ensures Opens(RunSession(paths, env).trace) <= PlannedOpens(paths, 0)
  {
    SessionOpens(paths, env);
    if HandshakePasses(env) {
      TargetsOpenPlan(env.unixConn, paths, env.target, 0);
    }
  }

  /** Fail-fast on netns handles: once path i does not pass, whether its
      write fails or its Ack does not decode, no path after path i is ever
      opened. */
  lemma OpensFailFast(paths: seq<string>, env: Env, i: nat)
    requires i < |paths|
    requires !TargetPasses(env.unixConn, env.target(i))
    ensures Opens(RunSession(paths, env).trace) <= PlannedOpens(paths, 0)[..i + 1]
  {
    OpensFollowPlan(paths, env);
    SessionOpens(paths, env);
    if HandshakePasses(env) {
      TargetsOpensStop(env.unixConn, paths, env.target, 0, i);
    }
    PrefixCut(Opens(RunSession(paths, env).trace), PlannedOpens(paths, 0), i + 1);
  }

  /** Every AddWorkload the session sends belongs to one of its paths, carries
      that path's descriptor in the same write, and uses one identifier
      "workload-<timestamp>" as uid, name, namespace and service account. */
  lemma RegistrationShape(paths: seq<string>, env: Env)
    ensures forall e :: e in Sends(RunSession(paths, env).trace) && e.Sent? && e.request.Add? ==>
      exists k :: 0 <= k < |paths| && e == AddSend(paths, env.target, k)
  {
    var s := Sends(RunSession(paths, env).trace);
    var plan := PlannedSends(paths, env);
    SendsFollowPlan(paths, env);
    forall e | e in s && e.Sent? && e.request.Add?
      ensures exists k :: 0 <= k < |paths| && e == AddSend(paths, env.target, k)
    {
      var n :| 0 <= n < |s| && s[n] == e;
      assert plan[n] == e;
      assert 0 < n;
      assert plan[(n - 1) + 1] == AddSend(paths, env.target, n - 1);
    }
  }

  /** The same per-target oracle with its Ack read reporting success. */
  function QuietAck(io: TargetIo): (q: TargetIo)
    ensures !q.ack.readFails
    ensures q.ack.decodes == io.ack.decodes
  {
    io.(ack := io.ack.(readFails := false))
  }

  /** The same oracles with every Ack read reporting success. */
  function WithoutAckReadErrors(env: Env): (quiet: Env)
    ensures !quiet.snapshotAck.readFails
    ensures forall k: nat :: quiet.target(k) == QuietAck(env.target(k))
  {
    env.(snapshotAck := env.snapshotAck.(readFails := false),
         target := (k: nat) => QuietAck(env.target(k)))
  }

  /** An event with the outcome of an Ack read replaced by success. */
  function Mute(e: Event): Event {
    if e.AckRead? then AckRead(false) else e
  }

  /** A trace with the outcome of every Ack read replaced by success. */
  function MuteAckReads(t: seq<Event>): (m: seq<Event>)
    ensures |m| == |t|
    ensures forall k :: 0 <= k < |t| ==> m[k] == Mute(t[k])
  {
    seq(|t|, k requires 0 <= k < |t| => Mute(t[k]))
  }

  lemma MuteAckReadsAppend(a: seq<Event>, b: seq<Event>)
    ensures MuteAckReads(a + b) == MuteAckReads(a) + MuteAckReads(b)
  {
  }

  /** Only the Ack read depends on the read result, and a registration's own
      events hold no Ack read. */
  lemma RegisteredQuiet(unixConn: bool, path: string, io: TargetIo)
    ensures WriteAddWorkload(unixConn, path, QuietAck(io)) == WriteAddWorkload(unixConn, path, io)
    ensures MuteAckReads(WriteAddWorkload(unixConn, path, io).events) == WriteAddWorkload(unixConn, path, io).events
  {
    var w := WriteAddWorkload(unixConn, path, io);
    if w.events != [] {
      var request := Sent(AddWorkloadRequest(io.timestamp), Some(path));
      assert w.events == [NetnsOpened(path), NetnsClosed(path)]
          || w.events == [NetnsOpened(path), request, NetnsClosed(path)];
    }
  }

  /** Registration and its Ack read, with the read's result muted. */
  lemma RegisteredMuted(w: Step, readFails: bool)
    requires MuteAckReads(w.events) == w.events
    ensures MuteAckReads(w.events + [AckRead(readFails)]) == w.events + [AckRead(false)]
  {
    MuteAckReadsAppend(w.events, [AckRead(readFails)]);
  }

  lemma {:induction false} TargetsIgnoreAckReadErrors(unixConn: bool, paths: seq<string>, io: nat -> TargetIo, quiet: nat -> TargetIo, i: nat)
    requires i <= |paths|
    requires forall k: nat :: quiet(k) == QuietAck(io(k))
    ensures RunTargets(unixConn, paths, quiet, i).terminal == RunTargets(unixConn, paths, io, i).terminal
    ensures RunTargets(unixConn, paths, quiet, i).trace == MuteAckReads(RunTargets(unixConn, paths, io, i).trace)
    decreases |paths| - i
  {
    if i < |paths| {
      var w := WriteAddWorkload(unixConn, paths[i], io(i));
      assert quiet(i) == QuietAck(io(i));
      RegisteredQuiet(unixConn, paths[i], io(i));
      if w.result.Fail? {
        assert RunTargets(unixConn, paths, io, i) == Run(w.events, Error(w.result.error));
        assert RunTargets(unixConn, paths, quiet, i) == Run(w.events, Error(w.result.error));
      } else {
        var loud := w.events + [AckRead(io(i).ack.readFails)];
        var calm := w.events + [AckRead(false)];
        RegisteredMuted(w, io(i).ack.readFails);
        if !io(i).ack.decodes {
          assert RunTargets(unixConn, paths, io, i) == Run(loud, Error(AckUnmarshalError));
          assert RunTargets(unixConn, paths, quiet, i) == Run(calm, Error(AckUnmarshalError));
        } else {
          var rest := RunTargets(unixConn, paths, io, i + 1);
          var restQuiet := RunTargets(unixConn, paths, quiet, i + 1);
          TargetsIgnoreAckReadErrors(unixConn, paths, io, quiet, i + 1);
          assert RunTargets(unixConn, paths, io, i) == Run(loud + rest.trace, rest.terminal);
          assert RunTargets(unixConn, paths, quiet, i) == Run(calm + restQuiet.trace, restQuiet.terminal);
          MuteAckReadsAppend(loud, rest.trace);
        }
      }
    }
  }

  /** Before the snapshot's Ack read the two sessions cannot differ. */
  lemma QuietOpening(paths: seq<string>, env: Env)
    requires !HelloAccepted(env.hello) || !env.snapshotMarshals || !env.snapshotWrites
    ensures Converse(paths, WithoutAckReadErrors(env)) == Converse(paths, env)
    ensures MuteAckReads(Converse(paths, env).trace) == Converse(paths, env).trace
  {
    var c := Converse(paths, env);
    assert c.trace == [c.trace[0]];
  }

  lemma QuietHandshake(env: Env)
    ensures MuteAckReads(HandshakeTrace(env)) == HandshakeTrace(WithoutAckReadErrors(env))
  {
  }

  lemma ConverseIgnoresAckReadErrors(paths: seq<string>, env: Env)
    ensures Converse(paths, WithoutAckReadErrors(env)).terminal == Converse(paths, env).terminal
    ensures Converse(paths, WithoutAckReadErrors(env)).trace == MuteAckReads(Converse(paths, env).trace)
  {
    var quiet := WithoutAckReadErrors(env);
    if !HelloAccepted(env.hello) || !env.snapshotMarshals || !env.snapshotWrites {
      QuietOpening(paths, env);
    } else if !env.snapshotAck.decodes {
      QuietHandshake(env);
      assert Converse(paths, env) == Run(HandshakeTrace(env), Error(AckUnmarshalError));
      assert Converse(paths, quiet) == Run(HandshakeTrace(quiet), Error(AckUnmarshalError));
    } else {
      var rest := RunTargets(env.unixConn, paths, env.target, 0);
      TargetsIgnoreAckReadErrors(env.unixConn, paths, env.target, quiet.target, 0);
      ConverseAfterHandshake(paths, env);
      ConverseAfterHandshake(paths, quiet);
      MuteAckReadsAppend(HandshakeTrace(env), rest.trace);
      QuietHandshake(env);
    }
  }

  /** A failed Ack read is never checked: only whether the Ack decodes
      matters. Making every Ack read succeed changes nothing but the recorded
      read results; the same writes happen and the session ends the same way. */
  lemma AckReadErrorsIgnored(paths: seq<string>, env: Env)
    ensures RunSession(paths, WithoutAckReadErrors(env)).terminal == RunSession(paths, env).terminal
    ensures RunSession(paths, WithoutAckReadErrors(env)).trace == MuteAckReads(RunSession(paths, env).trace)
  {
    var c := Converse(paths, env);
    ConverseIgnoresAckReadErrors(paths, env);
    if c.terminal.Error? {
      MuteAckReadsAppend(c.trace, [ConnClosed]);
    }
  }

  /** A session that runs to the end leaves the connection open; only the
      error path closes it, and then as its last act. This restates the
      contract of `RunSession` under the name of the behaviour. */
  lemma ConnectionClosedOnlyOnError(paths: seq<string>, env: Env)
    ensures RunSession(paths, env).terminal == Done ==> ConnClosed !in RunSession(paths, env).trace
    ensures RunSession(paths, env).terminal.Error? ==>
      RunSession(paths, env).trace[|RunSession(paths, env).trace| - 1] == ConnClosed
  {
  }

  /** One path, every step succeeding: hello, snapshot, Ack, open, AddWorkload
      with the descriptor, close, Ack, and the session is done. */
  lemma OneTargetScenario(timestamp: Int64)
    ensures var path := "/proc/1234/ns/net";
      var io := TargetIo(timestamp, true, true, true, AckIo(false, true));
      var env := Env(HelloArrives(Some(1)), true, true, AckIo(false, true), true, (k: nat) => io);
      RunSession([path], env) == Run(
        [ HelloRead(false), Sent(SnapshotSent, None), AckRead(false),
          NetnsOpened(path), Sent(AddWorkloadRequest(timestamp), Some(path)), NetnsClosed(path), AckRead(false)],
        Done)
  {
    var path := "/proc/1234/ns/net";
    var io := TargetIo(timestamp, true, true, true, AckIo(false, true));
    var env := Env(HelloArrives(Some(1)), true, true, AckIo(false, true), true, (k: nat) => io);
    var targets := [NetnsOpened(path), Sent(AddWorkloadRequest(timestamp), Some(path)), NetnsClosed(path), AckRead(false)];
    OneRegistration(path, env.target, timestamp);
    ConverseAfterHandshake([path], env);
    assert HandshakeTrace(env) + targets ==
      [ HelloRead(false), Sent(SnapshotSent, None), AckRead(false),
        NetnsOpened(path), Sent(AddWorkloadRequest(timestamp), Some(path)), NetnsClosed(path), AckRead(false)];
  }

  /** The loop over a single path whose every step succeeds. */
  lemma OneRegistration(path: string, target: nat -> TargetIo, timestamp: Int64)
    requires target(0) == TargetIo(timestamp, true, true, true, AckIo(false, true))
    ensures RunTargets(true, [path], target, 0) ==
      Run([NetnsOpened(path), Sent(AddWorkloadRequest(timestamp), Some(path)), NetnsClosed(path), AckRead(false)], Done)
  {
    var registered := [NetnsOpened(path), Sent(AddWorkloadRequest(timestamp), Some(path)), NetnsClosed(path)];
    assert WriteAddWorkload(true, path, target(0)).events == registered;
    assert RunTargets(true, [path], target, 1) == Run([], Done);
    var targets := registered + [AckRead(false)];
    assert RunTargets(true, [path], target, 0) == Run(targets + [], Done);
    assert targets + [] == targets;
  }

  /** No paths: the handshake alone completes the session. */
  lemma NoTargetsScenario()
    ensures var env := Env(HelloArrives(Some(1)), true, true, AckIo(false, true), true,
                           (k: nat) => TargetIo(0, false, false, false, AckIo(false, false)));
      RunSession([], env) == Run([HelloRead(false), Sent(SnapshotSent, None), AckRead(false)], Done)
  {
  }
}

=== FILE: shim.dfy ===
/** The per-connection ZDS session the shim drives against ztunnel: read a
    ZdsHello and check its version, send SnapshotSent, await an Ack, then for
    each netns path in order open it, send AddWorkload with the descriptor
    attached, and await an Ack.

    Every effect on the outside world is an oracle input (`Env`): the result
    of each read and decode, of each marshal and write, of each `os.Open`, the
    dynamic type of the connection and the clock. A session is a pure function
    of those oracles and the path list, yielding the trace of effects and a
    terminal state. */
module Shim {
  import opened Wrappers
  import opened Zds
  import opened Trace

  /** Why a session was abandoned; one case per `return fmt.Errorf` or
      `goto cleanup` of the source. */
  datatype SessionError =
    | HelloReadError
    | HelloUnmarshalError
    | UnsupportedVersion(version: int)
    | SnapshotMarshalError
    | SnapshotWriteError
    | AckUnmarshalError
    | AddWorkloadMarshalError
    | NotUnixConn
    | NetnsOpenError(path: string)
    | AddWorkloadWriteError(path: string)

  /** How a session ends: the loop finished (`continue`) or it jumped to `cleanup`. */
  datatype Terminal = Done | Error(cause: SessionError)

  /** The first `conn.Read`: it fails, or it yields bytes whose ZdsHello decode
      is `None` (malformed) or `Some(version)`. */
  datatype HelloIo = HelloReadFails | HelloArrives(decoded: Option<int>)

  /** One `conn.Read` followed by an Ack decode of whatever bytes it left in the buffer. */
  datatype AckIo = AckIo(readFails: bool, decodes: bool)

  /** What the world answers while registering one netns path: the clock, the
      marshal, the open, the descriptor-carrying write, and the Ack after it. */
  datatype TargetIo = TargetIo(timestamp: Int64, marshals: bool, opens: bool, writes: bool, ack: AckIo)

  /** All oracles of one connection. `target(i)` answers for the i-th path;
      `unixConn` says whether the accepted connection is a `*net.UnixConn`. */
  datatype Env = Env(
    hello: HelloIo,
    snapshotMarshals: bool,
    snapshotWrites: bool,
    snapshotAck: AckIo,
    unixConn: bool,
    target: nat -> TargetIo)

  /** A step that returns `error`, with the effects it had on the way. */
  datatype Step = Step(events: seq<Event>, result: Outcome<SessionError>)

  /** A whole session: its effects in order and how it ended. */
  datatype Run = Run(trace: seq<Event>, terminal: Terminal)

  // Reference conditions under which each stage goes through.

  predicate HelloAccepted(h: HelloIo) {
    h == HelloArrives(Some(SupportedVersion))
  }

  predicate HandshakePasses(env: Env) {
    && HelloAccepted(env.hello)
    && env.snapshotMarshals
    && env.snapshotWrites
    && env.snapshotAck.decodes
  }

  /** The registration gets as far as opening its netns path. */
  predicate OpensNetns(unixConn: bool, t: TargetIo) {
    t.marshals && unixConn && t.opens
  }

  predicate WritePasses(unixConn: bool, t: TargetIo) {
    t.marshals && unixConn && t.opens && t.writes
  }

  predicate TargetPasses(unixConn: bool, t: TargetIo) {
    WritePasses(unixConn, t) && t.ack.decodes
  }

  predicate SessionPasses(paths: seq<string>, env: Env) {
    && HandshakePasses(env)
    && forall j :: 0 <= j < |paths| ==> TargetPasses(env.unixConn, env.target(j))
  }

  /** `readZdsHello`, given the decode of the received bytes. */
  function ReadZdsHello(decoded: Option<int>): (r: Outcome<SessionError>)
    ensures r.Pass? <==> decoded == Some(SupportedVersion)
    ensures decoded.None? ==> r == Fail(HelloUnmarshalError)
    ensures decoded.Some? && decoded.value != SupportedVersion ==> r == Fail(UnsupportedVersion(decoded.value))
  {
    match decoded
    case None => Fail(HelloUnmarshalError)
    case Some(version) =>
      if version != SupportedVersion then Fail(UnsupportedVersion(version)) else Pass
  }

  /** `readAck`: only the decode decides; the Ack's content is not inspected. */
  function ReadAck(decodes: bool): (r: Outcome<SessionError>)
    ensures r.Pass? <==> decodes
    ensures r.Fail? ==> r.error == AckUnmarshalError
  {
    if decodes then Pass else Fail(AckUnmarshalError)
  }

  /** `writeSnapshot`: marshal a SnapshotSent request and write it, without a descriptor. */
  function WriteSnapshot(marshals: bool, writes: bool): (s: Step)
    ensures s.result.Pass? <==> marshals && writes
    ensures s.events == (if s.result.Pass? then [Sent(SnapshotSent, None)] else [])
  {
    if !marshals then Step([], Fail(SnapshotMarshalError))
    else if !writes then Step([], Fail(SnapshotWriteError))
    else Step([Sent(SnapshotSent, None)], Pass)
  }

  /** `writeAddWorkload`: mint the id, marshal, check that the connection is a
      Unix connection, open the netns path, write the request with the
      descriptor attached, and close the handle on every path out (`defer`). */
  function WriteAddWorkload(unixConn: bool, path: string, io: TargetIo): (s: Step)
    ensures s.result.Pass? <==> WritePasses(unixConn, io)
    ensures s.events == [] <==> !(io.marshals && unixConn && io.opens)
    ensures s.events != [] ==> s.events[0] == NetnsOpened(path)
    ensures io.marshals && !unixConn ==> s.result == Fail(NotUnixConn)
    ensures Sends(s.events) == (if s.result.Pass? then [Sent(AddWorkloadRequest(io.timestamp), Some(path))] else [])
    ensures HandlesBalanced(s.events, None)
    ensures ConnClosed !in s.events
  {
    var request := AddWorkloadRequest(io.timestamp);
    if !io.marshals then Step([], Fail(AddWorkloadMarshalError))
    else if !unixConn then Step([], Fail(NotUnixConn))
    else if !io.opens then Step([], Fail(NetnsOpenError(path)))
    else if !io.writes then
      HandleOnlyViews(path);
      Step([NetnsOpened(path), NetnsClosed(path)], Fail(AddWorkloadWriteError(path)))
    else
      HandleWithSendViews(path, request);
      Step([NetnsOpened(path), Sent(request, Some(path)), NetnsClosed(path)], Pass)
  }

  /** A handle opened and closed again with nothing written in between. */
  lemma HandleOnlyViews(path: string)
    ensures Sends([NetnsOpened(path), NetnsClosed(path)]) == []
    ensures HandlesBalanced([NetnsOpened(path), NetnsClosed(path)], None)
  {
    var events := [NetnsOpened(path), NetnsClosed(path)];
    assert events[1..] == [NetnsClosed(path)];
    assert events[1..][1..] == [];
    assert Project(events[1..], IsSend) == [];
  }

  /** A handle opened, its descriptor written with `request`, and closed. */
  lemma HandleWithSendViews(path: string, request: WorkloadRequest)
    ensures Sends([NetnsOpened(path), Sent(request, Some(path)), NetnsClosed(path)]) == [Sent(request, Some(path))]
    ensures HandlesBalanced([NetnsOpened(path), Sent(request, Some(path)), NetnsClosed(path)], None)
  {
    var events := [NetnsOpened(path), Sent(request, Some(path)), NetnsClosed(path)];
    assert events[1..] == [Sent(request, Some(path)), NetnsClosed(path)];
    assert events[1..][1..] == [NetnsClosed(path)];
    assert events[1..][1..][1..] == [];
    assert Project(events[1..][1..], IsSend) == [];
    assert Project(events[1..], IsSend) == [Sent(request, Some(path))];
    assert HandlesBalanced(events[1..][1..], Some(path));
    assert HandlesBalanced(events[1..], Some(path));
  }

  /** The body of `for _, p := range s.netnsPaths` from the i-th path on:
      register, await the Ack, and stop at the first failure. */
  function RunTargets(unixConn: bool, paths: seq<string>, io: nat -> TargetIo, i: nat): (r: Run)
    requires i <= |paths|
    ensures r.terminal == Done <==> forall j :: i <= j < |paths| ==> TargetPasses(unixConn, io(j))
    ensures ConnClosed !in r.trace
    decreases |paths| - i
  {
    if i == |paths| then Run([], Done)
    else
      var w := WriteAddWorkload(unixConn, paths[i], io(i));
      if w.result.Fail? then Run(w.events, Error(w.result.error))
      else
        var registered := w.events + [AckRead(io(i).ack.readFails)];
        var ack := ReadAck(io(i).ack.decodes);
        if ack.Fail? then Run(registered, Error(ack.error))
        else
          var rest := RunTargets(unixConn, paths, io, i + 1);
          Run(registered + rest.trace, rest.terminal)
  }

  /** The session up to the point where it either finishes or jumps to `cleanup`. */
  function Converse(paths: seq<string>, env: Env): (r: Run)
    ensures r.terminal == Done <==> SessionPasses(paths, env)
    ensures 1 <= |r.trace| && r.trace[0] == HelloRead(env.hello.HelloReadFails?)
    ensures ConnClosed !in r.trace
  {
    match env.hello
    case HelloReadFails => Run([HelloRead(true)], Error(HelloReadError))
    case HelloArrives(decoded) =>
      var hello := ReadZdsHello(decoded);
      if hello.Fail? then Run([HelloRead(false)], Error(hello.error))
      else
        var snapshot := WriteSnapshot(env.snapshotMarshals, env.snapshotWrites);
        if snapshot.result.Fail? then Run([HelloRead(false)] + snapshot.events, Error(snapshot.result.error))
        else
          var acked := [HelloRead(false)] + snapshot.events + [AckRead(env.snapshotAck.readFails)];
          var ack := ReadAck(env.snapshotAck.decodes);
          if ack.Fail? then Run(acked, Error(ack.error))
          else
            var rest := RunTargets(env.unixConn, paths, env.target, 0);
            Run(acked + rest.trace, rest.terminal)
  }

  /** One accepted connection, including the `cleanup` label: the connection
      is closed on the error path only; a finished session leaves it open. */
  function RunSession(paths: seq<string>, env: Env): (r: Run)
    ensures r.terminal == Done <==> SessionPasses(paths, env)
    ensures ConnClosed in r.trace <==> r.terminal.Error?
    ensures r.terminal.Error? ==> r.trace[|r.trace| - 1] == ConnClosed
    ensures 1 <= |r.trace| && r.trace[0] == HelloRead(env.hello.HelloReadFails?)
  {
    var r := Converse(paths, env);
    if r.terminal.Error? then Run(r.trace + [ConnClosed], r.terminal) else r
  }

  /** `r` with `prefix` performed before it. */
  function Then(prefix: seq<Event>, r: Run): Run {
    Run(prefix + r.trace, r.terminal)
  }

  /** The `for _, p := range s.netnsPaths` loop as the source writes it: an
      index over the paths, leaving at the first failed write or Ack. */
  method RegisterTargets(unixConn: bool, paths: seq<string>, io: nat -> TargetIo)
    returns (trace: seq<Event>, terminal: Terminal)
    ensures Run(trace, terminal) == RunTargets(unixConn, paths, io, 0)
  {
    trace := [];
    var i := 0;
    while i < |paths|
      invariant i <= |paths|
      invariant RunTargets(unixConn, paths, io, 0) == Then(trace, RunTargets(unixConn, paths, io, i))
      decreases |paths| - i
    {
      var before := trace;
      var w := WriteAddWorkload(unixConn, paths[i], io(i));
      trace := trace + w.events;
      if w.result.Fail? {
        assert RunTargets(unixConn, paths, io, i) == Run(w.events, Error(w.result.error));
        return trace, Error(w.result.error);
      }
      var registered := w.events + [AckRead(io(i).ack.readFails)];
      trace := before + registered;
      var ack := ReadAck(io(i).ack.decodes);
      if ack.Fail? {
        assert RunTargets(unixConn, paths, io, i) == Run(registered, Error(ack.error));
        return trace, Error(ack.error);
      }
      ghost var rest := RunTargets(unixConn, paths, io, i + 1);
      assert RunTargets(unixConn, paths, io, i) == Then(registered, rest);
      AppendAssoc(before, registered, rest.trace);
      i := i + 1;
    }
    assert trace + [] == trace;
    terminal := Done;
  }

  /** The accept loop's body for one connection, written as the source writes
      it: straight-line steps, then the registration loop, every failure
      jumping to a single cleanup that closes the connection. It computes
      exactly the session `RunSession` describes. */
  method ServeConnection(paths: seq<string>, env: Env) returns (trace: seq<Event>, terminal: Terminal)
    ensures Run(trace, terminal) == RunSession(paths, env)
  {
    label session: {
      if env.hello.HelloReadFails? {
        trace, terminal := [HelloRead(true)], Error(HelloReadError);
        break session;
      }
      trace := [HelloRead(false)];
      var hello := ReadZdsHello(env.hello.decoded);
      if hello.Fail? {
        terminal := Error(hello.error);
        break session;
      }
      var snapshot := WriteSnapshot(env.snapshotMarshals, env.snapshotWrites);
      trace := trace + snapshot.events;
      if snapshot.result.Fail? {
        terminal := Error(snapshot.result.error);
        break session;
      }
      trace := trace + [AckRead(env.snapshotAck.readFails)];
      var ack := ReadAck(env.snapshotAck.decodes);
      if ack.Fail? {
        terminal := Error(ack.error);
        break session;
      }
      var registered;
      registered, terminal := RegisterTargets(env.unixConn, paths, env.target);
      trace := trace + registered;
    }
    assert Converse(paths, env) == Run(trace, terminal);
    if terminal.Error? {
      trace := trace + [ConnClosed];
    }
  }
}

=== FILE: trace.dfy ===
/** What a session does to the outside world, recorded in order, and the
    views of such a record that the protocol's rules are stated over. */
module Trace {
  import opened Wrappers
  import opened Zds

  datatype Event =
      /** `conn.Read` for the first message, and whether it returned an error. */
    | HelloRead(readFailed: bool)
      /** `conn.Read` while awaiting an Ack, and whether it returned an error. */
    | AckRead(readFailed: bool)
      /** A successful write of one request. `rights` names the netns path whose
          descriptor travels in the same write as ancillary data, if any. */
    | Sent(request: WorkloadRequest, rights: Option<string>)
      /** `os.Open` of a netns path succeeded; one handle is now held. */
    | NetnsOpened(path: string)
      /** The handle opened for `path` was closed. */
    | NetnsClosed(path: string)
      /** The connection to ztunnel was closed. */
    | ConnClosed

  predicate IsSend(e: Event) {
    e.Sent?
  }

  predicate IsAckRead(e: Event) {
    e.AckRead?
  }

  predicate IsOpen(e: Event) {
    e.NetnsOpened?
  }

  /** The protocol exchange proper: what the shim sends and the Acks it awaits. */
  predicate IsExchange(e: Event) {
    e.Sent? || e.AckRead?
  }

  /** The events of `t` that `keep` selects, in their original order. */
  function Project(t: seq<Event>, keep: Event -> bool): (p: seq<Event>)
    ensures |p| <= |t|
    decreases |t|
  {
    if |t| == 0 then []
    else (if keep(t[0]) then [t[0]] else []) + Project(t[1..], keep)
  }

  /** An event is selected exactly when it occurs and `keep` holds of it. */
  lemma {:induction false} ProjectMembers(t: seq<Event>, keep: Event -> bool)
    ensures forall e :: e in Project(t, keep) <==> e in t && keep(e)
    decreases |t|
  {
    if |t| > 0 {
      ProjectMembers(t[1..], keep);
      assert t == [t[0]] + t[1..];
    }
  }

  /** A selection that no event of `t` meets selects nothing. */
  lemma ProjectNone(t: seq<Event>, keep: Event -> bool)
    requires forall e :: e in t ==> !keep(e)
    ensures Project(t, keep) == []
  {
    ProjectMembers(t, keep);
    if Project(t, keep) != [] {
      assert Project(t, keep)[0] in Project(t, keep);
    }
  }

  lemma {:induction false} ProjectAppend(a: seq<Event>, b: seq<Event>, keep: Event -> bool)
    ensures Project(a + b, keep) == Project(a, keep) + Project(b, keep)
    decreases |a|
  {
    if |a| == 0 {
      assert a + b == b;
    } else {
      var head := if keep(a[0]) then [a[0]] else [];
      assert (a + b)[0] == a[0];
      assert (a + b)[1..] == a[1..] + b;
      ProjectAppend(a[1..], b, keep);
      AppendAssoc(head, Project(a[1..], keep), Project(b, keep));
    }
  }

  lemma AppendAssoc(a: seq<Event>, b: seq<Event>, c: seq<Event>)
    ensures a + (b + c) == (a + b) + c
  {
  }

  function Sends(t: seq<Event>): seq<Event> {
    Project(t, IsSend)
  }

  function AckReads(t: seq<Event>): seq<Event> {
    Project(t, IsAckRead)
  }

  function Exchanges(t: seq<Event>): seq<Event> {
    Project(t, IsExchange)
  }

  /** The netns paths opened, in order. */
  function Opens(t: seq<Event>): seq<Event> {
    Project(t, IsOpen)
  }

  /** Netns handle discipline, starting with `held` open: a handle is opened only
      when none is held, a descriptor is attached only while its handle is held,
      the handle is closed before the next read or the end of the connection,
      and none is left open at the end. */
  predicate HandlesBalanced(t: seq<Event>, held: Option<string>)
    decreases |t|
  {
    if |t| == 0 then held.None?
    else match t[0]
      case NetnsOpened(p) => held.None? && HandlesBalanced(t[1..], Some(p))
      case NetnsClosed(p) => held == Some(p) && HandlesBalanced(t[1..], None)
      case Sent(_, rights) => (rights.None? || rights == held) && HandlesBalanced(t[1..], held)
      case _ => held.None? && HandlesBalanced(t[1..], held)
  }

  lemma {:induction false} HandlesBalancedAppend(a: seq<Event>, b: seq<Event>, held: Option<string>)
    requires HandlesBalanced(a, held) && HandlesBalanced(b, None)
    ensures HandlesBalanced(a + b, held)
    decreases |a|
  {
    if |a| == 0 {
      assert a + b == b;
    } else {
      assert (a + b)[0] == a[0];
      assert (a + b)[1..] == a[1..] + b;
      match a[0]
      case NetnsOpened(p) => HandlesBalancedAppend(a[1..], b, Some(p));
      case NetnsClosed(p) => HandlesBalancedAppend(a[1..], b, None);
      case _ => HandlesBalancedAppend(a[1..], b, held);
    }
  }

  /** Strict send/ack alternation: every send is directly followed by one awaited
      Ack, with no second send in between. */
  predicate Alternating(x: seq<Event>)
    decreases |x|
  {
    |x| == 0 || (2 <= |x| && x[0].Sent? && x[1].AckRead? && Alternating(x[2..]))
  }
}

=== FILE: wrappers.dfy ===
/** Failure-compatible result types shared by the model. */
module Wrappers {

  /** A value that may be absent: a decode that failed, a path that was not parsed. */
  datatype Option<+T> = None | Some(value: T)

  /** The result of an operation that returns only an error or nothing,
      the shape of a Go function whose single result is `error`. */
  datatype Outcome<+E> = Pass | Fail(error: E)
}

=== FILE: zds.dfy ===
/** The ZDS wire messages the shim exchanges with ztunnel, as logical values.
    Their protobuf encoding is not modelled: a decode is an oracle result. */
module Zds {
  import opened Wrappers
  import Decimal

  /** The only ZdsHello version the shim accepts. */
  const SupportedVersion: int := 1

  /** The value range of Go's `int64`, which `time.Now().UnixNano()` returns. */
  type Int64 = x: int | -0x8000_0000_0000_0000 <= x < 0x8000_0000_0000_0000

  datatype WorkloadInfo = WorkloadInfo(name: string, namespace: string, serviceAccount: string)

  datatype AddWorkload = AddWorkload(uid: string, workloadInfo: WorkloadInfo)

  /** The payload of a WorkloadRequest; the shim only ever sends these two. */
  datatype WorkloadRequest = SnapshotSent | Add(add: AddWorkload)

  const WorkloadPrefix: string := "workload-"

  /** The identifier minted for a registration: the prefix and the
      nanosecond timestamp printed with `%d`. */
  function WorkloadId(timestamp: Int64): (id: string)
    ensures |WorkloadPrefix| < |id|
    ensures id[..|WorkloadPrefix|] == WorkloadPrefix
  {
    WorkloadPrefix + Decimal.FormatInt(timestamp)
  }

  /** Recovers the timestamp from an identifier, or `None` if it has another shape. */
  function ParseWorkloadId(id: string): Option<int> {
    if |WorkloadPrefix| <= |id| && id[..|WorkloadPrefix|] == WorkloadPrefix
    then Decimal.ParseInt(id[|WorkloadPrefix|..])
    else None
  }

  /** One identifier serves as uid, name, namespace and service account. */
  predicate SingleId(a: AddWorkload) {
    a.workloadInfo == WorkloadInfo(a.uid, a.uid, a.uid)
  }

  lemma WorkloadIdRoundTrip(timestamp: Int64)
    ensures ParseWorkloadId(WorkloadId(timestamp)) == Some(timestamp as int)
  {
    var id := WorkloadId(timestamp);
    assert id[|WorkloadPrefix|..] == Decimal.FormatInt(timestamp);
    Decimal.FormatIntRoundTrip(timestamp);
  }

  /** Registrations minted at different nanoseconds carry different identifiers. */
  lemma WorkloadIdInjective(a: Int64, b: Int64)
    ensures WorkloadId(a) == WorkloadId(b) <==> a == b
  {
    if WorkloadId(a) == WorkloadId(b) {
      WorkloadIdRoundTrip(a);
      WorkloadIdRoundTrip(b);
    }
  }

  /** The AddWorkload request built for a registration minted at `timestamp`. */
  function AddWorkloadRequest(timestamp: Int64): (r: WorkloadRequest)
    ensures r.Add? && SingleId(r.add)
    ensures ParseWorkloadId(r.add.uid) == Some(timestamp as int)
  {
    WorkloadIdRoundTrip(timestamp);
    var id := WorkloadId(timestamp);
    Add(AddWorkload(id, WorkloadInfo(id, id, id)))
  }
}
